=== FILE: README.md ===
# QRkot allocation model

A Dafny model of the donation/charity-project allocation service of QRkot.
When a project or a donation is created, it is matched against the first
open record of the other kind by a three-way split on the remaining
deltas (`full_amount - invested_amount`): the side with more room absorbs
the other's need, equal deltas close both, and a smaller counterpart is
closed while the new record grows by its delta.  The model also covers
the administrative project update with its closure rule, the
"first open project" and by-name lookups, the report of closed projects
ordered by funding time with its `Nd Hh Mm Ss` formatting, and the
request-body validation of the project schemas.  The report's rows carry
the formatted text, as the source returns it; what that text means is
stated through `Duration.ParseDuration`, a reader of the format that
exists only in the model and that each rendered row is proved to read
back through.

The record store is an explicit value (`Ledger.Ledger`): the donations
table and the projects table as sequences in insertion order, a record
being identified by its position.  Every database session call becomes a
pure transition on that value, and the current instant `now` is an
integer parameter (whole seconds).

Modules, one per concern of the source:

- `Records` (`records.dfy`): the funded-record shape shared by projects and
  donations, its invariants, the delta, the loop guard and closure.
- `Ledger` (`ledger.dfy`): the two tables, the first-open query, totals.
- `Investing` (`investing.dfy`): the allocation engine and the create flows.
- `Schemas` (`schemas.dfy`): the project creation and update schemas.
- `CharityProjectCrud` (`crud.dfy`): update, name lookup and the report.
- `Duration` (`duration.dfy`): the days/hours/minutes/seconds split, its rendering and reading it back.
- `Wrappers` (`wrappers.dfy`): `Option`.

Closing a record is done by shared CRUD helpers whose code is not part of
this model (`app/crud/base.py`).  The model assumes they set
`invested_amount := full_amount`, `fully_invested := true` and
`close_date := now` (`Records.Close`), on a stored record and on the
not-yet-saved new record alike; every conservation and closure result
below rests on that assumption.  Saving appends the new record to its
table; a new record starts open with no closing date.

The loop in `distribute_donations` and `distribute_to_projects` is
modelled as written: its break test `if process_donation:` looks at the
step function itself, which is always truthy, so a creation performs at
most one match step (`Investing.Distribute`).  The loop its comments
describe, matching until the new record is satisfied or no counterpart
is open, is modelled separately as `Investing.DistributeUntilSatisfied`
and is not the source's behaviour.  The source's own evidence for that
intent is the `return True` of the step functions, commented "to exit the
outer while loop" (`app/services/investing.py:61`, `:72`, `:126`, `:133`),
and the `return False` of the branch that leaves the new record short; the
model follows the code and records the difference under Findings.

## Model

| member | source | states |
|---|---|---|
| Records.NeedsMoreInvestment | app/services/investing.py:169-171 | on a record that keeps the invariants, the loop guard holds exactly when the record is open (`fully_invested` false), the flag the open-record queries filter on |
| Records.Close | app/services/investing.py:182-222 | closing keeps identity and target, adds exactly the remaining delta, leaves the record closed at `now` and valid |
| Records.CloseIdempotent | app/services/investing.py:182-222 | closing twice at the same instant equals closing once |
| Records.CloseClosedIsNoOp | app/services/investing.py:182-222 | closing a valid closed record at its own closing instant changes nothing |
| Ledger.FirstOpen | app/crud/charity_project.py:51-60 | the result is an open record with no open record before it, and is None exactly when every record is closed |
| Investing.NewProject | app/services/investing.py:142-151 | a new project carries the request's fields, starts with nothing invested, and is open and valid when the amount is positive |
| Investing.NewDonation | app/services/investing.py:154-166 | a new donation starts with nothing invested, and has a user id exactly when a user is supplied, equal to that user's id |
| Investing.Process | app/services/investing.py:42-139 | one match step: larger counterpart delta grows the counterpart by the new delta and closes the new record; equal deltas close both; smaller closes the counterpart and grows the new record by its delta; both sides gain the same amount, the smaller delta; invariants are kept; the returned flag says whether the new record is satisfied |
| Investing.Distribute | app/services/investing.py:22-39 | the pass as written: nothing changes when nothing is needed or nothing is open; otherwise exactly one three-way step runs between the first open counterpart and the new record, the new record gains the smaller of the two deltas, and no other counterpart is touched; money gained on one side equals money gained on the other; invariants are kept |
| Investing.PassStopsAfterOneStep | app/services/investing.py:93-108 | when the first step leaves the new record short, the pass still ends: the counterpart is closed and the new record keeps needing money |
| Investing.DistributeUntilSatisfied | app/services/investing.py:28-39 | the intended pass: it stops only when the new record is satisfied or no counterpart is open; it conserves money and keeps invariants |
| Investing.UntilSatisfiedOldestFirst | app/services/investing.py:28-39 | the intended pass takes counterparts oldest first: the first open one takes the first step with nothing before it changed, and a counterpart is touched only once every earlier open one has been closed |
| Investing.PassAgreesWhenOneStepSuffices | app/services/investing.py:35-39 | whenever the single step satisfies the new record or leaves no open counterpart, the pass as written and the intended pass give the same state |
| Investing.SecondOpenDonationIgnored | app/services/investing.py:35-39 | two open donations of 10 and a new project of 20: as written the project stays open at 10 beside an open donation; intended, it closes |
| Investing.DonationSpreadOverTwoProjects | app/services/investing.py:106-108 | two open projects of 100 and a donation of 150: as written the second project gets nothing; intended, it gets 50 |
| Investing.CreateProjectInvesting | app/services/investing.py:11-19 | project creation appends the saved project, which keeps the request's name, description and amount and is dated `now`; with no open donation it moves nothing and saves the project exactly as built, open with nothing invested; otherwise the first open donation and the project go through one three-way step, the saved project holding the smaller of that donation's delta and its own target; at most one donation is touched; the ledger stays balanced and valid |
| Investing.CreateDonationInvesting | app/services/investing.py:81-90 | donation creation appends the saved donation, whose user id is that of the given user, or none without one; with no open project it moves nothing and saves the donation exactly as built; otherwise the first open project and the donation go through one three-way step, the saved donation holding the smaller of that project's delta and its own amount; at most one project is touched; the ledger stays balanced and valid |
| Investing.CreateProjectInvestingUntilSatisfied | app/services/investing.py:11-19 | with the intended pass, the saved project keeps the request's fields; with no open donation it is saved exactly as built; a project saved open leaves no open donation behind; balance and validity are kept |
| Investing.CreateDonationInvestingUntilSatisfied | app/services/investing.py:81-90 | with the intended pass, the saved donation keeps its amount and user id; with no open project it is saved exactly as built; a donation saved open leaves no open project behind; balance and validity are kept |
| Schemas.ParseCreate | app/schemas/charity_project.py:22-25 | an accepted creation body has a name of 1 to 100 characters, a non-empty description and a positive amount, and is exactly the body of the payload read |
| Schemas.ParseCreateAccepts | app/schemas/charity_project.py:22-25 | every well-formed creation payload is accepted and read back unchanged |
| Schemas.ParseUpdate | app/schemas/charity_project.py:11-34 | an accepted update body holds each sent field to the creation rules, never has a null name, and is exactly the body of the payload read |
| Schemas.ParseUpdateAccepts | app/schemas/charity_project.py:11-16 | every well-formed update payload, with any field left out, is accepted and read back unchanged |
| Schemas.ExtraFieldRejected | app/schemas/charity_project.py:18-19 | a body with a field outside the schema is rejected by both schemas |
| Schemas.NullNameRejected | app/schemas/charity_project.py:30-34 | an update sending the name as null is rejected |
| CharityProjectCrud.Update | app/crud/charity_project.py:17-37 | sent fields are written and others keep their values; the invested amount and creation date never change; target equal to invested closes at `now`, otherwise flag and closing date are kept; a null field fails the update |
| CharityProjectCrud.UpdateKeepsValid | app/crud/charity_project.py:26-32 | after a successful well-formed update a valid project stays valid exactly when its new target is not below what it holds and, if it was already closed, equals it |
| CharityProjectCrud.UpdateOfClosedRestampsCloseDate | app/crud/charity_project.py:30-32 | any successful update of a closed project that leaves its target alone moves its closing date to `now` |
| CharityProjectCrud.UpdateProjectAt | app/crud/charity_project.py:34-37 | the store update fails exactly when the project update fails, otherwise stores the updated project at its position, touches no other record and keeps the ledger balanced |
| CharityProjectCrud.ProjectIdByName | app/crud/charity_project.py:39-49 | the result is the first project with that name, and None exactly when no project has it |
| CharityProjectCrud.SelectClosed | app/crud/charity_project.py:74-94 | the selection holds exactly the entries of fully invested projects, each as many times as there are projects it stands for, and fails exactly when one of them has no closing date |
| CharityProjectCrud.SortByElapsed | app/crud/charity_project.py:84 | the result is ascending by elapsed seconds and a permutation of the input |
| CharityProjectCrud.RowOf | app/crud/charity_project.py:91-105 | a row keeps its project's name and description, and its time text reads back as the split elapsed time (`CharityProjectCrud.RowReadsBack`), so different entries give different rows (`CharityProjectCrud.RowOfInjective`) |
| CharityProjectCrud.ToRows | app/crud/charity_project.py:97-105 | formatting keeps the number and the order of the entries: the i-th row is the formatted i-th entry |
| CharityProjectCrud.RowReadsBack | app/crud/charity_project.py:97-105 | a row's `time_diff` text reads back as the project's elapsed seconds split into days, hours 0..23, minutes and seconds 0..59, whose total is the elapsed time |
| CharityProjectCrud.RowOfInjective | app/crud/charity_project.py:91-105 | two entries with the same row are the same entry, so formatting merges no two different projects |
| CharityProjectCrud.RowsCount | app/crud/charity_project.py:91-105 | formatting keeps multiplicities: a row occurs as often as the entry it stands for |
| CharityProjectCrud.ToRowsAscending | app/crud/charity_project.py:84-105 | formatting an ascending selection gives rows whose entries are in ascending order of elapsed time |
| CharityProjectCrud.ProjectsByCompletionRate | app/crud/charity_project.py:62-107 | the report has one row per fully invested project: every row is the formatted entry of a closed project, every closed project has its row, and each row occurs once for every project it stands for; rows are ascending by elapsed time; it fails exactly when a closed project has no closing date |
| Duration.Split | app/crud/charity_project.py:98-104 | hours are in 0..23, minutes and seconds in 0..59, and days*86400 + hours*3600 + minutes*60 + seconds is the elapsed time, negative times included |
| Duration.SplitOfTotal | app/crud/charity_project.py:11-12 | a duration with fields in range is the split of its own total, so the split is unique |
| Duration.ShowNatRoundTrip | app/crud/charity_project.py:99-104 | the decimal text of a number reads back as that number |
| Duration.Render | app/crud/charity_project.py:99-104 | the time text ends with the seconds field's `s`; it determines the duration, since it reads back as exactly the duration rendered (`Duration.RenderReadsBack`) |
| Duration.RenderReadsBack | app/crud/charity_project.py:99-105 | the text `<d>d <h>h <m>m <s>s` reads back, field by field, as the duration it was rendered from, negative days included |

## Left out

- Google Sheets and Drive export (`app/services/google_api.py`): network calls and wall-clock titles.
- Database sessions, commits, refreshes and async execution: every step is a pure transition on the ledger value.
- Atomicity of an allocation pass and concurrent creations: not expressible in this sequential model.
- `app/crud/base.py` is not part of this model: closing and saving are the assumed transitions stated above, and ids are replaced by table positions.
- The donation CRUD and the donation schema are not part of this model: the first-open-donation query is assumed to behave like `Ledger.FirstOpen`, and a donation request carries only its amount.
- `app/models/charity_project.py` contributes the name length limit 100 and the NOT NULL name and description columns. Its `unique=True` on `name` is not modelled: in the source, saving a project or committing an update with a name already taken fails at commit, while `Investing.CreateProjectInvesting` and `CharityProjectCrud.UpdateProjectAt` always succeed on such a name; the model assumes duplicate names are rejected by the caller before these run.
- The base model is not part of this model, so the NOT NULL `full_amount` column and the defaults (open, no closing date, created at `now`) are assumptions.
- Ledger.FirstOpen: the open-project query (`get_open_charity_project`, app/crud/charity_project.py:51-60) has no `ORDER BY`, so `.first()` returns whatever row the database scans first; the open-donation query is not part of this model and is assumed to behave the same. Taking the first open record in insertion order is an assumption of the model, not a guarantee of the source.
- SQLite `strftime('%s')` and `datetime.utcnow()`: instants are whole seconds given as integers, so truncation of fractional seconds is not modelled.
- Pydantic type coercion: a field of the wrong JSON kind is rejected rather than converted.
- CharityProjectCrud.SortByElapsed: the SQL order among projects with equal elapsed time is unspecified, so the contract states only ascending order and permutation; the model's insertion sort is stable and keeps ties in table order (`CharityProjectCrud.TiesKeepTableOrder` shows one case).
- Records.Close: whether the unseen helpers stamp a new closing date on an already closed record is unknown; the model stamps it, so closing is idempotent only at the same instant, not an unconditional no-op.
- Records.Valid asks for a positive target; the schema enforces this on input and the model proves it is kept, but no database constraint for it is modelled.

## Findings

| source | as written | input that shows it | evidently intended | confidence | as-written member | corrected member |
|---|---|---|---|---|---|---|
| app/services/investing.py:38 | `if process_donation:` tests the function object, which is always true, so the project's pass ends after one match step | two open donations of 10 and a new project of 20: the project is saved open at 10 while the second donation stays open (`Investing.SecondOpenDonationIgnored`) | break only when the step reports the project satisfied (`if await process_donation(...)`), as the step's `return True` comments "to leave the outer while loop" say | high; not executed | Investing.Distribute | Investing.DistributeUntilSatisfied |
| app/services/investing.py:107 | the donation's pass tests the same function object, so it also ends after one match step | two open projects of 100 and a donation of 150: the second project receives nothing (`Investing.DonationSpreadOverTwoProjects`) | break only when `process_project` reports the donation satisfied | high; not executed | Investing.CreateDonationInvesting | Investing.CreateDonationInvestingUntilSatisfied |

The corrected pass is used by `Investing.CreateProjectInvestingUntilSatisfied`
and `Investing.CreateDonationInvestingUntilSatisfied`; the create flows
without that suffix keep the behaviour as written.

=== FILE: crud.dfy ===
/**
 * The charity-project CRUD logic: the administrative update with its
 * closure rule, and the report of closed projects ordered by how long
 * they took to fund.  The first-open-project query is `Ledger.FirstOpen`.
 */
module CharityProjectCrud {
  import opened Wrappers
  import opened Records
  import opened Ledger
  import opened Schemas
  import opened Duration

  /** The value a column holds after one field of an update body is applied. */
  function Apply<T>(p: Patch<T>, current: T): T
  {
    if p.Set? then p.value else current
  }

  /**
   * The administrative update.  Every field sent in the body is written to
   * the project; the invested amount is never among them.  If the target
   * then equals the invested amount the project is marked closed at `now`.
   * A field sent as null is written as null, which the project's NOT NULL
   * columns refuse, so the update then fails as a whole.
   */
  function Update(p: Project, u: ProjectUpdate, now: int): (r: Option<Project>)
    ensures r.None? <==> u.name.Null? || u.description.Null? || u.fullAmount.Null?
    // Fields sent are written, fields left out keep their values.
    ensures r.Some? && u.name.Set? ==> r.value.info.name == u.name.value
    ensures r.Some? && u.name.Unset? ==> r.value.info.name == p.info.name
    ensures r.Some? && u.description.Set? ==> r.value.info.description == u.description.value
    ensures r.Some? && u.description.Unset? ==> r.value.info.description == p.info.description
    ensures r.Some? && u.fullAmount.Set? ==> r.value.fullAmount == u.fullAmount.value
    ensures r.Some? && u.fullAmount.Unset? ==> r.value.fullAmount == p.fullAmount
    ensures r.Some? ==> r.value.investedAmount == p.investedAmount && r.value.createDate == p.createDate
    // The closure rule, in both directions.
    ensures r.Some? && r.value.fullAmount == r.value.investedAmount ==>
      r.value.fullyInvested && r.value.closeDate == Some(now)
    ensures r.Some? && r.value.fullAmount != r.value.investedAmount ==>
      r.value.fullyInvested == p.fullyInvested && r.value.closeDate == p.closeDate
  {
    if u.name.Null? || u.description.Null? || u.fullAmount.Null? then None
    else
      var q := p.(info := ProjectInfo(Apply(u.name, p.info.name), Apply(u.description, p.info.description)),
                  fullAmount := Apply(u.fullAmount, p.fullAmount));
      if q.fullAmount == q.investedAmount then Some(q.(fullyInvested := true, closeDate := Some(now)))
      else Some(q)
  }

  /**
   * When a successful, schema-valid update leaves a project keeping the
   * invariants: exactly when the new target is not below the invested
   * amount, and a project already closed keeps a target equal to it.
   */
  lemma UpdateKeepsValid(p: Project, u: ProjectUpdate, now: int)
    requires Valid(p) && UpdateWellFormed(u) && Update(p, u, now).Some?
    ensures var target := Apply(u.fullAmount, p.fullAmount);
      Valid(Update(p, u, now).value) <==>
        p.investedAmount <= target && (IsOpen(p) || target == p.investedAmount)
  {
  }

  /** Any successful update of an already closed project stamps its closing date anew. */
  lemma UpdateOfClosedRestampsCloseDate(p: Project, u: ProjectUpdate, now: int)
    requires Valid(p) && !IsOpen(p) && u.fullAmount.Unset?
    requires Update(p, u, now).Some?
    ensures Update(p, u, now).value.closeDate == Some(now)
  {
  }

  /** Updating the project at position `i` of the store. */
  function UpdateProjectAt(l: Ledger, i: nat, u: ProjectUpdate, now: int): (r: Option<Ledger>)
    requires i < |l.projects|
    ensures r.None? <==> Update(l.projects[i], u, now).None?
    ensures r.Some? ==> r.value.donations == l.donations && |r.value.projects| == |l.projects|
    ensures r.Some? ==> r.value.projects[i] == Update(l.projects[i], u, now).value
    ensures r.Some? ==> forall j :: 0 <= j < |l.projects| && j != i ==> r.value.projects[j] == l.projects[j]
    ensures r.Some? && Balanced(l) ==> Balanced(r.value)
  {
    match Update(l.projects[i], u, now)
    case None => None
    case Some(q) =>
      TotalInvestedUpdate(l.projects, i, q);
      Some(Ledger(l.donations, l.projects[i := q]))
  }

  /**
   * The id lookup by project name: the position of the first project
   * carrying that name, or None when no project does.
   */
  function ProjectIdByName(ps: seq<Project>, name: string): (r: Option<nat>)
    ensures r.Some? ==> r.value < |ps| && ps[r.value].info.name == name
    ensures r.Some? ==> forall j :: 0 <= j < r.value ==> ps[j].info.name != name
    ensures r.None? <==> forall j :: 0 <= j < |ps| ==> ps[j].info.name != name
  {
    if |ps| == 0 then None
    else if ps[0].info.name == name then Some(0)
    else match ProjectIdByName(ps[1..], name)
      case None => None
      case Some(k) => Some(k + 1)
  }

  /** One closed project as the report query selects it. */
  datatype Closed = Closed(name: string, description: string, elapsed: int)

  /** One line of the report, with the elapsed time as the text `"<d>d <h>h <m>m <s>s"`. */
  datatype ReportRow = ReportRow(name: string, description: string, timeDiff: string)

  /** What the query selects for a closed project: its name, description and seconds from creation to closing. */
  predicate Selects(p: Project, e: Closed)
  {
    p.fullyInvested && p.closeDate.Some?
    && e == Closed(p.info.name, p.info.description, p.closeDate.value - p.createDate)
  }

  /** Number of projects with `fully_invested` set. */
  function ClosedCount(ps: seq<Project>): nat
  {
    if |ps| == 0 then 0 else (if ps[0].fullyInvested then 1 else 0) + ClosedCount(ps[1..])
  }

  /** Number of projects of the table selected as `e`. */
  function CountSelected(ps: seq<Project>, e: Closed): nat
  {
    if |ps| == 0 then 0 else (if Selects(ps[0], e) then 1 else 0) + CountSelected(ps[1..], e)
  }

  /** Some project of the table is selected as `e`. */
  predicate Selected(ps: seq<Project>, e: Closed)
  {
    exists j :: 0 <= j < |ps| && Selects(ps[j], e)
  }

  /** A closed project without a closing instant, whose elapsed time cannot be formatted. */
  predicate Unformattable(p: Project)
  {
    p.fullyInvested && p.closeDate.None?
  }

  /** A project that is not fully invested adds to no count. */
  lemma CountPastSkipped(ps: seq<Project>, rest: seq<Closed>)
    requires 0 < |ps| && !ps[0].fullyInvested
    requires forall e :: multiset(rest)[e] == CountSelected(ps[1..], e)
    ensures forall e :: multiset(rest)[e] == CountSelected(ps, e)
  {
    forall e
      ensures multiset(rest)[e] == CountSelected(ps, e)
    {
      assert !Selects(ps[0], e);
    }
  }

  /** A closed project adds one to the count of its own entry. */
  lemma CountPastSelected(ps: seq<Project>, e0: Closed, rest: seq<Closed>)
    requires 0 < |ps| && Selects(ps[0], e0)
    requires forall e :: multiset(rest)[e] == CountSelected(ps[1..], e)
    ensures forall e :: multiset([e0] + rest)[e] == CountSelected(ps, e)
  {
    forall e
      ensures multiset([e0] + rest)[e] == CountSelected(ps, e)
    {
      assert Selects(ps[0], e) <==> e == e0;
    }
  }

  /**
   * The projects with `fully_invested` set, in table order.  A selected
   * project without a closing instant has no elapsed time, and formatting
   * it fails the whole report.
   */
  function SelectClosed(ps: seq<Project>): (r: Option<seq<Closed>>)
    ensures r.None? <==> exists j :: 0 <= j < |ps| && Unformattable(ps[j])
    ensures r.Some? ==> forall e :: e in r.value <==> Selected(ps, e)
    ensures r.Some? ==> |r.value| == ClosedCount(ps)
    // Each entry occurs once per project selected as it, in particular two
    // closed projects with the same name, description and time both appear.
    ensures r.Some? ==> forall e :: multiset(r.value)[e] == CountSelected(ps, e)
  {
    if |ps| == 0 then Some([])
    else
      var p := ps[0];
      match SelectClosed(ps[1..])
      case None =>
        assert exists j :: 0 <= j < |ps| && Unformattable(ps[j]) by {
          var k :| 0 <= k < |ps[1..]| && Unformattable(ps[1..][k]);
          assert Unformattable(ps[k + 1]);
        }
        None
      case Some(rest) =>
        forall e | e in rest
          ensures Selected(ps, e)
        {
          var k :| 0 <= k < |ps[1..]| && Selects(ps[1..][k], e);
          assert ps[1..][k] == ps[k + 1];
        }
        if !p.fullyInvested then
          forall j, e | 0 <= j < |ps| && Selects(ps[j], e)
            ensures e in rest
          {
            assert j != 0 && ps[1..][j - 1] == ps[j];
          }
          CountPastSkipped(ps, rest);
          Some(rest)
        else if p.closeDate.None? then
          assert Unformattable(ps[0]);
          None
        else
          var e0 := Closed(p.info.name, p.info.description, p.closeDate.value - p.createDate);
          assert Selects(ps[0], e0);
          forall j, e | 0 <= j < |ps| && Selects(ps[j], e)
            ensures e in [e0] + rest
          {
            if j != 0 {
              assert ps[1..][j - 1] == ps[j];
            }
          }
          CountPastSelected(ps, e0, rest);
          Some([e0] + rest)
  }

  predicate SortedByElapsed(s: seq<Closed>)
  {
    forall i, j :: 0 <= i < j < |s| ==> s[i].elapsed <= s[j].elapsed
  }

  /** Inserts one entry into an ascending sequence, before any entry with the same elapsed time. */
  function Insert(x: Closed, s: seq<Closed>): (r: seq<Closed>)
    requires SortedByElapsed(s)
    ensures SortedByElapsed(r)
    ensures |r| == |s| + 1 && (r[0] == x || (0 < |s| && r[0] == s[0]))
  {
    if |s| == 0 then [x]
    else if x.elapsed <= s[0].elapsed then [x] + s
    else
      var tail := Insert(x, s[1..]);
      assert s[0].elapsed <= tail[0].elapsed;
      [s[0]] + tail
  }

  /** Inserting adds exactly the inserted entry. */
  lemma {:induction false} InsertPermutes(x: Closed, s: seq<Closed>)
    requires SortedByElapsed(s)
    ensures multiset(Insert(x, s)) == multiset(s) + multiset{x}
  {
    if |s| > 0 && x.elapsed > s[0].elapsed {
      InsertPermutes(x, s[1..]);
      assert s == [s[0]] + s[1..];
    }
  }

  /** The ascending order by elapsed time of the report query. */
  function SortByElapsed(s: seq<Closed>): (r: seq<Closed>)
    ensures SortedByElapsed(r)
    ensures multiset(r) == multiset(s)
  {
    if |s| == 0 then []
    else
      var sorted := SortByElapsed(s[1..]);
      InsertPermutes(s[0], sorted);
      assert multiset(s) == multiset(s[1..]) + multiset{s[0]} by {
        assert s == [s[0]] + s[1..];
      }
      Insert(s[0], sorted)
  }

  /** The report line of one selected entry. */
  function RowOf(e: Closed): (row: ReportRow)
    ensures row.name == e.name && row.description == e.description
  {
    ReportRow(e.name, e.description, Render(Split(e.elapsed)))
  }

  /** A row's time column reads back as the entry's elapsed time, split into a duration in range. */
  lemma RowReadsBack(e: Closed)
    ensures ParseDuration(RowOf(e).timeDiff) == Some(Split(e.elapsed))
    ensures InRange(ParseDuration(RowOf(e).timeDiff).value)
    ensures TotalSeconds(ParseDuration(RowOf(e).timeDiff).value) == e.elapsed
  {
    RenderReadsBack(Split(e.elapsed));
  }

  /** Formats each selected entry, keeping the order. */
  function ToRows(s: seq<Closed>): (rows: seq<ReportRow>)
    ensures |rows| == |s|
    ensures forall i :: 0 <= i < |s| ==> rows[i] == RowOf(s[i])
  {
    if |s| == 0 then [] else [RowOf(s[0])] + ToRows(s[1..])
  }

  /** Distinct entries are formatted as distinct rows: a row reads back as its entry. */
  lemma RowOfInjective(a: Closed, b: Closed)
    requires RowOf(a) == RowOf(b)
    ensures a == b
  {
    RowReadsBack(a);
    RowReadsBack(b);
  }

  /** A sequence of rows whose rows equal `row` exactly where the entries equal `e` holds `row` as often as `e` occurs. */
  lemma {:induction false} ImageCount(s: seq<Closed>, rows: seq<ReportRow>, e: Closed, row: ReportRow)
    requires |rows| == |s|
    requires forall i :: 0 <= i < |s| ==> (rows[i] == row <==> s[i] == e)
    ensures multiset(rows)[row] == multiset(s)[e]
  {
    if |s| > 0 {
      ImageCount(s[1..], rows[1..], e, row);
      assert s == [s[0]] + s[1..];
      assert rows == [rows[0]] + rows[1..];
    }
  }

  /** Formatting keeps multiplicities. */
  lemma RowsCount(s: seq<Closed>, e: Closed)
    ensures multiset(ToRows(s))[RowOf(e)] == multiset(s)[e]
  {
    var rows := ToRows(s);
    forall i | 0 <= i < |s|
      ensures rows[i] == RowOf(e) <==> s[i] == e
    {
      if rows[i] == RowOf(e) {
        RowOfInjective(s[i], e);
      }
    }
    ImageCount(s, rows, e, RowOf(e));
  }

  /** The rows of an ascending selection stand for entries in ascending order of elapsed time. */
  lemma ToRowsAscending(s: seq<Closed>)
    requires SortedByElapsed(s)
    ensures forall i, k, a, b :: 0 <= i < k < |ToRows(s)| && ToRows(s)[i] == RowOf(a) && ToRows(s)[k] == RowOf(b) ==>
      a.elapsed <= b.elapsed
  {
    var rows := ToRows(s);
    forall i, k, a, b | 0 <= i < k < |rows| && rows[i] == RowOf(a) && rows[k] == RowOf(b)
      ensures a.elapsed <= b.elapsed
    {
      RowOfInjective(s[i], a);
      RowOfInjective(s[k], b);
    }
  }

  /** The entry the query selects for a closed project. */
  function EntryOf(p: Project): Closed
    requires p.closeDate.Some?
  {
    Closed(p.info.name, p.info.description, p.closeDate.value - p.createDate)
  }

  /** Every entry of a reordered selection comes from a closed project. */
  lemma ReorderedSound(ps: seq<Project>, entries: seq<Closed>, sorted: seq<Closed>)
    requires forall e :: e in entries ==> Selected(ps, e)
    requires multiset(sorted) == multiset(entries)
    ensures forall i :: 0 <= i < |sorted| ==> Selected(ps, sorted[i])
  {
    forall i | 0 <= i < |sorted|
      ensures Selected(ps, sorted[i])
    {
      assert sorted[i] in multiset(entries);
      assert sorted[i] in entries;
    }
  }

  /** Every closed project has its entry in a reordered selection. */
  lemma ReorderedComplete(ps: seq<Project>, entries: seq<Closed>, sorted: seq<Closed>)
    requires forall j :: 0 <= j < |ps| ==> !Unformattable(ps[j])
    requires forall e :: Selected(ps, e) ==> e in entries
    requires multiset(sorted) == multiset(entries)
    ensures forall j :: 0 <= j < |ps| && ps[j].fullyInvested ==>
      ps[j].closeDate.Some? && exists i :: 0 <= i < |sorted| && sorted[i] == EntryOf(ps[j])
  {
    forall j | 0 <= j < |ps| && ps[j].fullyInvested
      ensures ps[j].closeDate.Some? && exists i :: 0 <= i < |sorted| && sorted[i] == EntryOf(ps[j])
    {
      assert !Unformattable(ps[j]);
      var e := EntryOf(ps[j]);
      assert Selects(ps[j], e);
      assert Selected(ps, e);
      assert e in entries;
      assert e in multiset(sorted);
      var i :| 0 <= i < |sorted| && sorted[i] == e;
    }
  }

  /** The rows of a reordered selection: what the report states about its rows. */
  lemma RowsOfReordered(ps: seq<Project>, entries: seq<Closed>, sorted: seq<Closed>)
    requires forall e :: e in entries ==> Selected(ps, e)
    requires forall e :: multiset(entries)[e] == CountSelected(ps, e)
    requires multiset(sorted) == multiset(entries)
    ensures forall i :: 0 <= i < |ToRows(sorted)| ==> exists e :: Selected(ps, e) && ToRows(sorted)[i] == RowOf(e)
    ensures forall e :: multiset(ToRows(sorted))[RowOf(e)] == CountSelected(ps, e)
  {
    ReorderedSound(ps, entries, sorted);
    var rows := ToRows(sorted);
    forall i | 0 <= i < |rows|
      ensures exists e :: Selected(ps, e) && rows[i] == RowOf(e)
    {
      assert Selected(ps, sorted[i]) && rows[i] == RowOf(sorted[i]);
    }
    forall e
      ensures multiset(rows)[RowOf(e)] == CountSelected(ps, e)
    {
      RowsCount(sorted, e);
    }
  }

  /** What the report states about the rows of the sorted selection. */
  lemma ReportRows(ps: seq<Project>, entries: seq<Closed>)
    requires SelectClosed(ps) == Some(entries)
    ensures var rows := ToRows(SortByElapsed(entries));
      && |rows| == ClosedCount(ps)
      && (forall i :: 0 <= i < |rows| ==> exists e :: Selected(ps, e) && rows[i] == RowOf(e))
      && (forall j :: 0 <= j < |ps| && ps[j].fullyInvested ==>
            ps[j].closeDate.Some? && exists i :: 0 <= i < |rows| && rows[i] == RowOf(EntryOf(ps[j])))
      && (forall e :: multiset(rows)[RowOf(e)] == CountSelected(ps, e))
  {
    var sorted := SortByElapsed(entries);
    assert |sorted| == |multiset(sorted)| == |multiset(entries)| == |entries|;
    ReorderedComplete(ps, entries, sorted);
    RowsOfReordered(ps, entries, sorted);
  }

  /**
   * The closed-project report: every fully invested project, each with its
   * own name and description and its funding time written as days, hours,
   * minutes and seconds, fastest first.  It fails when a closed project has
   * no closing instant.
   */
  function ProjectsByCompletionRate(ps: seq<Project>): (r: Option<seq<ReportRow>>)
    ensures r.None? <==> exists j :: 0 <= j < |ps| && Unformattable(ps[j])
    ensures r.Some? ==> |r.value| == ClosedCount(ps)
    // Fastest first: the entries two rows stand for are in ascending order of elapsed time.
    ensures r.Some? ==> forall i, k, a, b :: 0 <= i < k < |r.value| && r.value[i] == RowOf(a) && r.value[k] == RowOf(b) ==>
      a.elapsed <= b.elapsed
    // Each row is a closed project, each closed project has a row, and a row
    // occurs as often as there are closed projects it stands for.
    ensures r.Some? ==> forall i :: 0 <= i < |r.value| ==>
      exists e :: Selected(ps, e) && r.value[i] == RowOf(e)
    ensures r.Some? ==> forall j :: 0 <= j < |ps| && ps[j].fullyInvested ==>
      ps[j].closeDate.Some? && exists i :: 0 <= i < |r.value| && r.value[i] == RowOf(EntryOf(ps[j]))
    ensures r.Some? ==> forall e :: multiset(r.value)[RowOf(e)] == CountSelected(ps, e)
  {
    match SelectClosed(ps)
    case None => None
    case Some(entries) =>
      ReportRows(ps, entries);
      ToRowsAscending(SortByElapsed(entries));
      Some(ToRows(SortByElapsed(entries)))
  }

  /** Closed projects with equal funding times keep their table order in the report. */
  lemma TiesKeepTableOrder()
    ensures var a := Closed("a", "x", 5);
      var b := Closed("b", "y", 5);
      SortByElapsed([a, b]) == [a, b]
  {
    var a := Closed("a", "x", 5);
    var b := Closed("b", "y", 5);
    assert [a, b][1..] == [b];
    assert [b][1..] == [];
  }
}

=== FILE: duration.dfy ===
/**
 * Elapsed seconds split into days, hours, minutes and seconds the way a
 * Python `timedelta` does it (days floored, the remainder in 0..86399),
 * and its decimal rendering `"<d>d <h>h <m>m <s>s"`.
 */
module Duration {

  import opened Wrappers

  const SecondsInMinute: int := 60
  const SecondsInHour: int := 3600
  const SecondsInDay: int := 86400

  datatype Duration = Duration(days: int, hours: int, minutes: int, seconds: int)

  predicate InRange(d: Duration)
  {
    0 <= d.hours < 24 && 0 <= d.minutes < 60 && 0 <= d.seconds < 60
  }

  function TotalSeconds(d: Duration): int
  {
    d.days * SecondsInDay + d.hours * SecondsInHour + d.minutes * SecondsInMinute + d.seconds
  }

  /**
   * The split of a (possibly negative) number of seconds.  Dafny's `/` and
   * `%` by a positive divisor floor, as `timedelta` does.
   */
  function Split(total: int): (d: Duration)
    ensures InRange(d)
    ensures TotalSeconds(d) == total
  {
    var days := total / SecondsInDay;
    var rest := total % SecondsInDay;
    Duration(days, rest / SecondsInHour, (rest % SecondsInHour) / SecondsInMinute, rest % SecondsInMinute)
  }

  /** A non-zero multiple of a positive number is at least that number away from zero. */
  lemma {:induction false} MultipleBound(k: int, n: int)
    requires 0 < n
    ensures k >= 1 ==> k * n >= n
    ensures k <= -1 ==> k * n <= -n
    decreases if k < 0 then -k else k
  {
    if k > 1 {
      MultipleBound(k - 1, n);
      assert k * n == (k - 1) * n + n;
    } else if k < -1 {
      MultipleBound(k + 1, n);
      assert k * n == (k + 1) * n - n;
    }
  }

  /** `q*n + r` with `0 <= r < n` has quotient `q` and remainder `r`. */
  lemma DivModOf(q: int, r: int, n: int)
    requires 0 < n && 0 <= r < n
    ensures (q * n + r) / n == q && (q * n + r) % n == r
  {
    var t := q * n + r;
    var q', r' := t / n, t % n;
    assert (q - q') * n == r' - r by {
      assert t == q' * n + r';
      assert (q - q') * n == q * n - q' * n;
    }
    MultipleBound(q - q', n);
  }

  /** A duration in range is the split of its own total: the split is unique. */
  lemma SplitOfTotal(d: Duration)
    requires InRange(d)
    ensures Split(TotalSeconds(d)) == d
  {
    var rest := d.hours * SecondsInHour + d.minutes * SecondsInMinute + d.seconds;
    DivModOf(d.days, rest, SecondsInDay);
    var inHour := d.minutes * SecondsInMinute + d.seconds;
    DivModOf(d.hours, inHour, SecondsInHour);
    DivModOf(d.minutes, d.seconds, SecondsInMinute);
    assert rest % SecondsInMinute == d.seconds by {
      DivModOf(d.hours * 60 + d.minutes, d.seconds, SecondsInMinute);
      assert rest == (d.hours * 60 + d.minutes) * SecondsInMinute + d.seconds;
    }
  }

  function DigitChar(n: int): char
    requires 0 <= n < 10
  {
    "0123456789"[n]
  }

  function DigitValue(c: char): int
  {
    if '0' <= c <= '9' then c as int - '0' as int else 0
  }

  /** Decimal digits of a natural number, most significant first. */
  function ShowNat(n: nat): (s: string)
    ensures 0 < |s|
    ensures forall i :: 0 <= i < |s| ==> '0' <= s[i] <= '9'
  {
    if n < 10 then [DigitChar(n)] else ShowNat(n / 10) + [DigitChar(n % 10)]
  }

  /** Reads decimal digits back. */
  function ReadNat(s: string): nat
  {
    if |s| == 0 then 0 else ReadNat(s[..|s| - 1]) * 10 + DigitValue(s[|s| - 1]) as nat
  }

  /** Rendering a number and reading it back gives the number. */
  lemma {:induction false} ShowNatRoundTrip(n: nat)
    ensures ReadNat(ShowNat(n)) == n
  {
    if n >= 10 {
      var s := ShowNat(n);
      assert s[..|s| - 1] == ShowNat(n / 10);
      ShowNatRoundTrip(n / 10);
    }
  }

  function ShowInt(n: int): string
  {
    if n < 0 then "-" + ShowNat(-n) else ShowNat(n)
  }

  /**
   * The report's time column, `"<days>d <hours>h <minutes>m <seconds>s"`.
   * `RenderReadsBack` shows the text determines the duration.
   */
  function Render(d: Duration): (s: string)
    ensures 5 <= |s| && s[|s| - 1] == 's'
  {
    var secondsText := ShowInt(d.seconds) + "s";
    var minutesText := ShowInt(d.minutes) + "m " + secondsText;
    var hoursText := ShowInt(d.hours) + "h " + minutesText;
    ShowInt(d.days) + "d " + hoursText
  }

  predicate IsDigit(c: char)
  {
    '0' <= c <= '9'
  }

  /** Length of the run of decimal digits at the start of `s`. */
  function DigitRun(s: string): (k: nat)
    ensures k <= |s|
  {
    if |s| == 0 || !IsDigit(s[0]) then 0 else 1 + DigitRun(s[1..])
  }

  /** A number read from the front of a text, with the text after it. */
  datatype Scan = Scan(value: int, rest: string)

  /** Reads a run of decimal digits from the front of `s`. */
  function ReadUnsigned(s: string): Option<Scan>
  {
    var k := DigitRun(s);
    if k == 0 then None else Some(Scan(ReadNat(s[..k]), s[k..]))
  }

  /** Reads an optionally negative decimal number from the front of `s`. */
  function ReadInt(s: string): Option<Scan>
  {
    if 0 < |s| && s[0] == '-' then
      var u :- ReadUnsigned(s[1..]);
      Some(Scan(-u.value, u.rest))
    else
      ReadUnsigned(s)
  }

  /** Reads a number followed by the unit text `unit`. */
  function ReadField(s: string, unit: string): Option<Scan>
  {
    var n :- ReadInt(s);
    if unit <= n.rest then Some(Scan(n.value, n.rest[|unit|..])) else None
  }

  /** Reads a time column `"<d>d <h>h <m>m <s>s"` back into its four numbers. */
  function ParseDuration(s: string): Option<Duration>
  {
    var d :- ReadField(s, "d ");
    var h :- ReadField(d.rest, "h ");
    var m :- ReadField(h.rest, "m ");
    var sec :- ReadField(m.rest, "s");
    if |sec.rest| == 0 then Some(Duration(d.value, h.value, m.value, sec.value)) else None
  }

  /** The digit run of digits followed by a non-digit is exactly those digits. */
  lemma {:induction false} DigitRunOfDigits(digits: string, tail: string)
    requires forall i :: 0 <= i < |digits| ==> IsDigit(digits[i])
    requires 0 < |tail| && !IsDigit(tail[0])
    ensures DigitRun(digits + tail) == |digits|
  {
    if |digits| == 0 {
      assert digits + tail == tail;
    } else {
      assert (digits + tail)[1..] == digits[1..] + tail;
      assert IsDigit((digits + tail)[0]);
      DigitRunOfDigits(digits[1..], tail);
    }
  }

  /** Rendered digits followed by a non-digit read back as the number and the text after it. */
  lemma ReadDigitsOfShown(n: nat, tail: string)
    requires 0 < |tail| && !IsDigit(tail[0])
    ensures ReadUnsigned(ShowNat(n) + tail) == Some(Scan(n, tail))
  {
    var digits := ShowNat(n);
    var s := digits + tail;
    DigitRunOfDigits(digits, tail);
    assert s[..|digits|] == digits;
    assert s[|digits|..] == tail;
    ShowNatRoundTrip(n);
  }

  /** A minus sign followed by digits reads as the negated digits. */
  lemma ReadIntOfMinus(s: string, t: string, tail: string, m: int)
    requires s == ['-'] + t && ReadUnsigned(t) == Some(Scan(m, tail))
    ensures ReadInt(s) == Some(Scan(-m, tail))
  {
    assert s[0] == '-' && s[1..] == t;
  }

  /** A negative number is rendered as a minus sign and the digits of its magnitude. */
  lemma ShowNegative(n: int, tail: string)
    requires n < 0
    ensures ShowInt(n) + tail == ['-'] + (ShowNat(-n) + tail)
  {
  }

  /** A rendered negative number followed by a non-digit reads back as that number. */
  lemma ReadNegativeOfShown(n: int, tail: string)
    requires n < 0 && 0 < |tail| && !IsDigit(tail[0])
    ensures ReadInt(ShowInt(n) + tail) == Some(Scan(n, tail))
  {
    ShowNegative(n, tail);
    ReadDigitsOfShown(-n, tail);
    ReadIntOfMinus(ShowInt(n) + tail, ShowNat(-n) + tail, tail, -n);
  }

  /** A rendered non-negative number followed by a non-digit reads back as that number. */
  lemma ReadNonNegativeOfShown(n: int, tail: string)
    requires 0 <= n && 0 < |tail| && !IsDigit(tail[0])
    ensures ReadInt(ShowInt(n) + tail) == Some(Scan(n, tail))
  {
    var digits := ShowNat(n);
    assert ShowInt(n) + tail == digits + tail;
    assert (digits + tail)[0] != '-' by {
      assert (digits + tail)[0] == digits[0];
    }
    ReadDigitsOfShown(n, tail);
  }

  /** A rendered number followed by a non-digit reads back as that number. */
  lemma ReadIntOfShown(n: int, tail: string)
    requires 0 < |tail| && !IsDigit(tail[0]) && tail[0] != '-'
    ensures ReadInt(ShowInt(n) + tail) == Some(Scan(n, tail))
  {
    if n < 0 {
      ReadNegativeOfShown(n, tail);
    } else {
      ReadNonNegativeOfShown(n, tail);
    }
  }

  /** A rendered number followed by its unit reads back as that number. */
  lemma ReadFieldOfShown(n: int, unit: string, rest: string)
    requires 0 < |unit| && !IsDigit(unit[0]) && unit[0] != '-'
    ensures ReadField(ShowInt(n) + unit + rest, unit) == Some(Scan(n, rest))
  {
    assert ShowInt(n) + unit + rest == ShowInt(n) + (unit + rest);
    ReadIntOfShown(n, unit + rest);
    assert (unit + rest)[|unit|..] == rest;
  }

  /** A rendered number followed by its unit and nothing else reads back as that number. */
  lemma ReadLastFieldOfShown(n: int, unit: string)
    requires 0 < |unit| && !IsDigit(unit[0]) && unit[0] != '-'
    ensures ReadField(ShowInt(n) + unit, unit) == Some(Scan(n, []))
  {
    assert ShowInt(n) + unit == ShowInt(n) + unit + [];
    ReadFieldOfShown(n, unit, []);
  }

  /** A text whose four fields read back in turn, with nothing after the last, parses as those fields. */
  lemma ParseOfFields(s: string, hoursText: string, minutesText: string, secondsText: string, d: Duration)
    requires ReadField(s, "d ") == Some(Scan(d.days, hoursText))
    requires ReadField(hoursText, "h ") == Some(Scan(d.hours, minutesText))
    requires ReadField(minutesText, "m ") == Some(Scan(d.minutes, secondsText))
    requires ReadField(secondsText, "s") == Some(Scan(d.seconds, []))
    ensures ParseDuration(s) == Some(d)
  {
  }

  /** Reading a rendered duration back gives the duration. */
  lemma RenderReadsBack(d: Duration)
    ensures ParseDuration(Render(d)) == Some(d)
  {
    var secondsText := ShowInt(d.seconds) + "s";
    var minutesText := ShowInt(d.minutes) + "m " + secondsText;
    var hoursText := ShowInt(d.hours) + "h " + minutesText;
    ReadFieldOfShown(d.days, "d ", hoursText);
    ReadFieldOfShown(d.hours, "h ", minutesText);
    ReadFieldOfShown(d.minutes, "m ", secondsText);
    ReadLastFieldOfShown(d.seconds, "s");
    ParseOfFields(ShowInt(d.days) + "d " + hoursText, hoursText, minutesText, secondsText, d);
  }
}

=== FILE: investing.dfy ===
/**
 * The allocation engine: a newly created project or donation is matched
 * against the first open record of the other table, and the two remaining
 * deltas decide which side closes.
 */
module Investing {
  import opened Wrappers
  import opened Records
  import opened Ledger
  import opened Schemas

  /** The authenticated user a donation may be made by. */
  datatype User = User(id: int)

  function Min(a: int, b: int): int
  {
    if a <= b then a else b
  }

  /** A freshly built project: the request's fields, nothing invested yet, created at `now`. */
  function NewProject(c: ProjectCreate, now: int): (p: Project)
    ensures p.investedAmount == 0 && p.fullAmount == c.fullAmount
    ensures p.info == ProjectInfo(c.name, c.description) && p.createDate == now
    ensures 0 < c.fullAmount ==> Valid(p) && IsOpen(p) && NeedsMoreInvestment(p)
  {
    Record(ProjectInfo(c.name, c.description), c.fullAmount, 0, false, now, None)
  }

  /** A freshly built donation: the user's id is recorded exactly when a user is given. */
  function NewDonation(c: DonationCreate, user: Option<User>, now: int): (d: Donation)
    ensures d.investedAmount == 0 && d.fullAmount == c.fullAmount && d.createDate == now
    ensures d.info.userId.Some? <==> user.Some?
    ensures user.Some? ==> d.info.userId.value == user.value.id
    ensures 0 < c.fullAmount ==> Valid(d) && IsOpen(d) && NeedsMoreInvestment(d)
  {
    var userId := if user.Some? then Some(user.value.id) else None;
    Record(DonationInfo(userId), c.fullAmount, 0, false, now, None)
  }

  /** Outcome of one match step: both records afterwards, and whether the incoming one was satisfied. */
  datatype Matched<+A, +B> = Matched(other: Record<A>, incoming: Record<B>, satisfied: bool)

  /**
   * One match step between a stored record `other` and the new record
   * `incoming`, by the three-way split on their deltas.  Models both directions:
   * a stored donation against a newly created project, and a stored project against a
   * newly created donation.
   */
  function Process<A, B>(other: Record<A>, incoming: Record<B>, now: int): (m: Matched<A, B>)
    // Only the funding columns move.
    ensures m.other.info == other.info && m.other.createDate == other.createDate
    ensures m.other.fullAmount == other.fullAmount
    ensures m.incoming.info == incoming.info && m.incoming.createDate == incoming.createDate
    ensures m.incoming.fullAmount == incoming.fullAmount
    // The other side has more room: it absorbs the new record's whole need and stays open.
    ensures Delta(other) > Delta(incoming) ==>
      && m.other.investedAmount == other.investedAmount + Delta(incoming)
      && m.other.fullyInvested == other.fullyInvested && m.other.closeDate == other.closeDate
      && NeedsMoreInvestment(m.other)
      && m.incoming.investedAmount == incoming.fullAmount && m.incoming.fullyInvested && m.incoming.closeDate == Some(now)
    // Equal deltas: both sides close.
    ensures Delta(other) == Delta(incoming) ==>
      && m.other.investedAmount == other.fullAmount && m.other.fullyInvested && m.other.closeDate == Some(now)
      && m.incoming.investedAmount == incoming.fullAmount && m.incoming.fullyInvested && m.incoming.closeDate == Some(now)
    // The other side has less room: it closes and the new record grows by the other's delta.
    ensures Delta(other) < Delta(incoming) ==>
      && m.other.investedAmount == other.fullAmount && m.other.fullyInvested && m.other.closeDate == Some(now)
      && m.incoming.investedAmount == incoming.investedAmount + Delta(other)
      && m.incoming.fullyInvested == incoming.fullyInvested && m.incoming.closeDate == incoming.closeDate
      && NeedsMoreInvestment(m.incoming)
    // Conservation: both sides gain the same amount, the smaller of the two deltas.
    ensures m.other.investedAmount - other.investedAmount == Min(Delta(other), Delta(incoming))
    ensures m.incoming.investedAmount - incoming.investedAmount == Min(Delta(other), Delta(incoming))
    // The reported flag says whether the new record is satisfied; if not, the other side closed.
    ensures m.satisfied <==> !NeedsMoreInvestment(m.incoming)
    ensures !m.satisfied ==> !IsOpen(m.other)
    // Two open records that keep the invariants still keep them.
    ensures Valid(other) && Valid(incoming) && IsOpen(other) && IsOpen(incoming) ==> Valid(m.other) && Valid(m.incoming)
  {
    var otherDelta := Delta(other);
    var incomingDelta := Delta(incoming);
    if otherDelta > incomingDelta then
      Matched(other.(investedAmount := other.investedAmount + incomingDelta), Close(incoming, now), true)
    else if otherDelta == incomingDelta then
      Matched(Close(other, now), Close(incoming, now), true)
    else
      Matched(Close(other, now), incoming.(investedAmount := incoming.investedAmount + otherDelta), false)
  }

  /** Outcome of a distribution pass: the other table afterwards, the new record, and the position matched. */
  datatype Pass<+A, +B> = Pass(others: seq<Record<A>>, incoming: Record<B>, matched: Option<nat>)

  /**
   * A distribution pass as the loop is written: its break test looks at the
   * step function itself, which is always truthy, so the loop exits after
   * the first match step whatever that step's outcome.
   */
  function Distribute<A, B>(others: seq<Record<A>>, incoming: Record<B>, now: int): (p: Pass<A, B>)
    ensures |p.others| == |others|
    // Nothing to do, or nobody to match: the pass changes nothing.
    ensures p.matched.None? <==> !NeedsMoreInvestment(incoming) || FirstOpen(others).None?
    ensures p.matched.None? ==> p.others == others && p.incoming == incoming
    // Otherwise exactly the first open record is touched, and no other.
    ensures p.matched.Some? ==>
      && p.matched == FirstOpen(others)
      && p.others == others[p.matched.value := p.others[p.matched.value]]
    // ... by exactly one three-way step between it and the new record.
    ensures p.matched.Some? ==>
      var m := Process(others[p.matched.value], incoming, now);
      p.others[p.matched.value] == m.other && p.incoming == m.incoming
    ensures p.matched.Some? ==>
      p.incoming.investedAmount - incoming.investedAmount == Min(Delta(others[p.matched.value]), Delta(incoming))
    ensures forall j :: 0 <= j < |others| && Some(j) != p.matched ==> p.others[j] == others[j]
    // Conservation across the pass.
    ensures TotalInvested(p.others) - TotalInvested(others) == p.incoming.investedAmount - incoming.investedAmount
    ensures AllValid(others) && Valid(incoming) ==> AllValid(p.others) && Valid(p.incoming)
  {
    if !NeedsMoreInvestment(incoming) then Pass(others, incoming, None)
    else match FirstOpen(others)
      case None => Pass(others, incoming, None)
      case Some(i) =>
        var m := Process(others[i], incoming, now);
        TotalInvestedUpdate(others, i, m.other);
        Pass(others[i := m.other], m.incoming, Some(i))
  }

  /** Outcome of a pass run until satisfied: the other table afterwards and the new record. */
  datatype Settled<+A, +B> = Settled(others: seq<Record<A>>, incoming: Record<B>)

  /**
   * The pass as its comments say it was meant to run: keep matching the
   * first open record until the new record is satisfied or no open record
   * remains.  This is not what the loop as written does.
   */
  function DistributeUntilSatisfied<A, B>(others: seq<Record<A>>, incoming: Record<B>, now: int): (p: Settled<A, B>)
    ensures |p.others| == |others|
    // Stops only when satisfied or out of counterparts.
    ensures p.incoming.info == incoming.info && p.incoming.fullAmount == incoming.fullAmount
    ensures p.incoming.createDate == incoming.createDate
    ensures NeedsMoreInvestment(p.incoming) ==> FirstOpen(p.others).None?
    ensures !NeedsMoreInvestment(incoming) || FirstOpen(others).None? ==> p.others == others && p.incoming == incoming
    ensures TotalInvested(p.others) - TotalInvested(others) == p.incoming.investedAmount - incoming.investedAmount
    ensures AllValid(others) && Valid(incoming) ==> AllValid(p.others) && Valid(p.incoming)
    decreases OpenCount(others)
  {
    if !NeedsMoreInvestment(incoming) then Settled(others, incoming)
    else match FirstOpen(others)
      case None => Settled(others, incoming)
      case Some(i) =>
        var m := Process(others[i], incoming, now);
        TotalInvestedUpdate(others, i, m.other);
        if m.satisfied then Settled(others[i := m.other], m.incoming)
        else
          OpenCountClose(others, i, m.other);
          DistributeUntilSatisfied(others[i := m.other], m.incoming, now)
  }

  /**
   * The intended pass takes counterparts oldest first: the first open one
   * takes the first step with nothing before it changed, and a counterpart
   * is touched only once every earlier open one has been closed.
   */
  lemma {:induction false} UntilSatisfiedOldestFirst<A, B>(others: seq<Record<A>>, incoming: Record<B>, now: int)
    ensures var p := DistributeUntilSatisfied(others, incoming, now);
      NeedsMoreInvestment(incoming) && FirstOpen(others).Some? ==>
        var i := FirstOpen(others).value;
        && (forall j :: 0 <= j < i ==> p.others[j] == others[j])
        && p.others[i] == Process(others[i], incoming, now).other
    ensures var p := DistributeUntilSatisfied(others, incoming, now);
      forall j :: 0 <= j < |others| && p.others[j] != others[j] ==>
        IsOpen(others[j]) && forall k :: 0 <= k < j && IsOpen(others[k]) ==> !IsOpen(p.others[k])
    decreases OpenCount(others)
  {
    if NeedsMoreInvestment(incoming) && FirstOpen(others).Some? {
      var i := FirstOpen(others).value;
      var m := Process(others[i], incoming, now);
      if !m.satisfied {
        var next := others[i := m.other];
        OpenCountClose(others, i, m.other);
        UntilSatisfiedOldestFirst(next, m.incoming, now);
        // The step closed the first open counterpart, so the rest of the pass starts after it.
        assert FirstOpen(next).None? || i < FirstOpen(next).value by {
          assert !IsOpen(next[i]);
        }
      }
    }
  }

  /** The record a creation saves, and the store after it. */
  datatype Created<+I> = Created(ledger: Ledger, saved: Record<I>)

  /**
   * Creating a project: build it, run one distribution pass over the
   * donations as written, then append it to the projects table.
   */
  function CreateProjectInvesting(l: Ledger, c: ProjectCreate, now: int): (r: Created<ProjectInfo>)
    ensures r.ledger.projects == l.projects + [r.saved]
    ensures r.saved.info == ProjectInfo(c.name, c.description) && r.saved.fullAmount == c.fullAmount
    ensures r.saved.createDate == now
    ensures |r.ledger.donations| == |l.donations|
    // With no open donation nothing moves and the project is saved with nothing invested.
    ensures FirstOpen(l.donations).None? || c.fullAmount <= 0 ==>
      r.ledger.donations == l.donations && r.saved == NewProject(c, now)
    // Otherwise the first open donation and the project go through one three-way step.
    ensures 0 < c.fullAmount && FirstOpen(l.donations).Some? ==>
      var i := FirstOpen(l.donations).value;
      var m := Process(l.donations[i], NewProject(c, now), now);
      r.ledger.donations == l.donations[i := m.other] && r.saved == m.incoming
    ensures 0 < c.fullAmount && FirstOpen(l.donations).Some? ==>
      r.saved.investedAmount == Min(Delta(l.donations[FirstOpen(l.donations).value]), c.fullAmount)
    // At most one donation is touched.
    ensures forall j, k :: 0 <= j < k < |l.donations| ==>
      r.ledger.donations[j] == l.donations[j] || r.ledger.donations[k] == l.donations[k]
    ensures Balanced(l) ==> Balanced(r.ledger)
    ensures LedgerValid(l) && CreateWellFormed(c) ==> LedgerValid(r.ledger)
  {
    var p := Distribute(l.donations, NewProject(c, now), now);
    TotalInvestedAppend(l.projects, p.incoming);
    Created(Ledger(p.others, l.projects + [p.incoming]), p.incoming)
  }

  /**
   * Creating a donation: build it, run one distribution pass over the
   * projects as written, then append it to the donations table.
   */
  function CreateDonationInvesting(l: Ledger, c: DonationCreate, user: Option<User>, now: int): (r: Created<DonationInfo>)
    ensures r.ledger.donations == l.donations + [r.saved]
    ensures r.saved.fullAmount == c.fullAmount && r.saved.createDate == now
    ensures r.saved.info == NewDonation(c, user, now).info
    ensures |r.ledger.projects| == |l.projects|
    ensures FirstOpen(l.projects).None? || c.fullAmount <= 0 ==>
      r.ledger.projects == l.projects && r.saved == NewDonation(c, user, now)
    ensures 0 < c.fullAmount && FirstOpen(l.projects).Some? ==>
      var i := FirstOpen(l.projects).value;
      var m := Process(l.projects[i], NewDonation(c, user, now), now);
      r.ledger.projects == l.projects[i := m.other] && r.saved == m.incoming
    ensures 0 < c.fullAmount && FirstOpen(l.projects).Some? ==>
      r.saved.investedAmount == Min(Delta(l.projects[FirstOpen(l.projects).value]), c.fullAmount)
    ensures forall j, k :: 0 <= j < k < |l.projects| ==>
      r.ledger.projects[j] == l.projects[j] || r.ledger.projects[k] == l.projects[k]
    ensures Balanced(l) ==> Balanced(r.ledger)
    ensures LedgerValid(l) && 0 < c.fullAmount ==> LedgerValid(r.ledger)
  {
    var p := Distribute(l.projects, NewDonation(c, user, now), now);
    TotalInvestedAppend(l.donations, p.incoming);
    Created(Ledger(l.donations + [p.incoming], p.others), p.incoming)
  }

  /** Creating a project with the pass run until satisfied; not the behaviour of the code as written. */
  function CreateProjectInvestingUntilSatisfied(l: Ledger, c: ProjectCreate, now: int): (r: Created<ProjectInfo>)
    ensures r.ledger.projects == l.projects + [r.saved]
    ensures r.saved.info == ProjectInfo(c.name, c.description) && r.saved.fullAmount == c.fullAmount
    ensures r.saved.createDate == now
    ensures |r.ledger.donations| == |l.donations|
    ensures FirstOpen(l.donations).None? || c.fullAmount <= 0 ==>
      r.ledger.donations == l.donations && r.saved == NewProject(c, now)
    ensures IsOpen(r.saved) && LedgerValid(l) && CreateWellFormed(c) ==> FirstOpen(r.ledger.donations).None?
    ensures Balanced(l) ==> Balanced(r.ledger)
    ensures LedgerValid(l) && CreateWellFormed(c) ==> LedgerValid(r.ledger)
  {
    var p := DistributeUntilSatisfied(l.donations, NewProject(c, now), now);
    TotalInvestedAppend(l.projects, p.incoming);
    Created(Ledger(p.others, l.projects + [p.incoming]), p.incoming)
  }

  /** Creating a donation with the pass run until satisfied; not the behaviour of the code as written. */
  function CreateDonationInvestingUntilSatisfied(l: Ledger, c: DonationCreate, user: Option<User>, now: int): (r: Created<DonationInfo>)
    ensures r.ledger.donations == l.donations + [r.saved]
    ensures r.saved.fullAmount == c.fullAmount && r.saved.createDate == now
    ensures r.saved.info == NewDonation(c, user, now).info
    ensures |r.ledger.projects| == |l.projects|
    ensures FirstOpen(l.projects).None? || c.fullAmount <= 0 ==>
      r.ledger.projects == l.projects && r.saved == NewDonation(c, user, now)
    ensures IsOpen(r.saved) && LedgerValid(l) && 0 < c.fullAmount ==> FirstOpen(r.ledger.projects).None?
    ensures Balanced(l) ==> Balanced(r.ledger)
    ensures LedgerValid(l) && 0 < c.fullAmount ==> LedgerValid(r.ledger)
  {
    var p := DistributeUntilSatisfied(l.projects, NewDonation(c, user, now), now);
    TotalInvestedAppend(l.donations, p.incoming);
    Created(Ledger(l.donations + [p.incoming], p.others), p.incoming)
  }

  /**
   * The pass as written stops after its first step even when that step
   * leaves the new record open: the first open counterpart is closed, the
   * new record keeps needing money, and nothing else is looked at.
   */
  lemma PassStopsAfterOneStep<A, B>(others: seq<Record<A>>, incoming: Record<B>, now: int, i: nat)
    requires NeedsMoreInvestment(incoming) && FirstOpen(others) == Some(i)
    requires Delta(others[i]) < Delta(incoming)
    ensures var p := Distribute(others, incoming, now);
      && NeedsMoreInvestment(p.incoming)
      && p.others == others[i := Close(others[i], now)]
      && p.incoming.investedAmount == incoming.investedAmount + Delta(others[i])
  {
    var p := Distribute(others, incoming, now);
    assert p.others[i] == Close(others[i], now);
  }

  /** Where one step is all it takes, the pass as written and the intended pass agree. */
  lemma {:induction false} PassAgreesWhenOneStepSuffices<A, B>(others: seq<Record<A>>, incoming: Record<B>, now: int)
    requires var p := Distribute(others, incoming, now); !NeedsMoreInvestment(p.incoming) || FirstOpen(p.others).None?
    ensures var p := Distribute(others, incoming, now); var q := DistributeUntilSatisfied(others, incoming, now);
      p.others == q.others && p.incoming == q.incoming
  {
    var p := Distribute(others, incoming, now);
    if p.matched.Some? {
      var i := p.matched.value;
      var m := Process(others[i], incoming, now);
      assert p.others == others[i := m.other] && p.incoming == m.incoming;
      if !m.satisfied {
        OpenCountClose(others, i, m.other);
        assert DistributeUntilSatisfied(others, incoming, now)
            == DistributeUntilSatisfied(others[i := m.other], m.incoming, now);
      }
    }
  }

  /**
   * Two open donations of 10 and a new project of 20: the pass as written
   * leaves the project open at 10 although the second donation is still
   * open; the intended pass closes the project and both donations.
   */
  lemma SecondOpenDonationIgnored()
    ensures var d := Record(DonationInfo(None), 10, 0, false, 0, None);
      var l := Ledger([d, d], []);
      var c := ProjectCreate("p", "d", 20);
      var asWritten := CreateProjectInvesting(l, c, 5);
      var intended := CreateProjectInvestingUntilSatisfied(l, c, 5);
      && asWritten.saved.investedAmount == 10 && IsOpen(asWritten.saved)
      && IsOpen(asWritten.ledger.donations[1])
      && intended.saved.investedAmount == 20 && !IsOpen(intended.saved)
      && !IsOpen(intended.ledger.donations[1])
  {
    AsWrittenStopsAtFirstDonation();
    UntilSatisfiedReachesSecondDonation();
  }

  /** The as-written half of the scenario above: one donation used, the project left open. */
  lemma AsWrittenStopsAtFirstDonation()
    ensures var d := Record(DonationInfo(None), 10, 0, false, 0, None);
      var asWritten := CreateProjectInvesting(Ledger([d, d], []), ProjectCreate("p", "d", 20), 5);
      && asWritten.saved.investedAmount == 10 && IsOpen(asWritten.saved)
      && IsOpen(asWritten.ledger.donations[1])
  {
    var d := Record(DonationInfo(None), 10, 0, false, 0, None);
    var l := Ledger([d, d], []);
    var c := ProjectCreate("p", "d", 20);
    var np := NewProject(c, 5);
    assert FirstOpen(l.donations) == Some(0);
    var m := Process(d, np, 5);
    assert !m.satisfied && m.incoming.investedAmount == 10;
    assert l.donations[0 := m.other] == [m.other, d];
    var asWritten := CreateProjectInvesting(l, c, 5);
    assert asWritten.ledger.donations == [m.other, d] && asWritten.saved == m.incoming;
  }

  /** The corrected half of the scenario above: both donations used, the project closed. */
  lemma UntilSatisfiedReachesSecondDonation()
    ensures var d := Record(DonationInfo(None), 10, 0, false, 0, None);
      var intended := CreateProjectInvestingUntilSatisfied(Ledger([d, d], []), ProjectCreate("p", "d", 20), 5);
      && intended.saved.investedAmount == 20 && !IsOpen(intended.saved)
      && !IsOpen(intended.ledger.donations[1])
  {
    var d := Record(DonationInfo(None), 10, 0, false, 0, None);
    var c := ProjectCreate("p", "d", 20);
    var closed := Record(DonationInfo(None), 10, 10, true, 0, Some(5));
    var full := Record(ProjectInfo("p", "d"), 20, 20, true, 5, Some(5));
    FirstStepLeavesProjectHalfFunded();
    SecondStepClosesProject();
    assert DistributeUntilSatisfied([d, d], NewProject(c, 5), 5) == Settled([closed, closed], full);
  }

  /** First step of the corrected pass: the first donation closes, the project is half funded. */
  lemma FirstStepLeavesProjectHalfFunded()
    ensures var d := Record(DonationInfo(None), 10, 0, false, 0, None);
      var closed := Record(DonationInfo(None), 10, 10, true, 0, Some(5));
      var half := Record(ProjectInfo("p", "d"), 20, 10, false, 5, None);
      DistributeUntilSatisfied([d, d], NewProject(ProjectCreate("p", "d", 20), 5), 5)
        == DistributeUntilSatisfied([closed, d], half, 5)
  {
    var d := Record(DonationInfo(None), 10, 0, false, 0, None);
    var closed := Record(DonationInfo(None), 10, 10, true, 0, Some(5));
    var half := Record(ProjectInfo("p", "d"), 20, 10, false, 5, None);
    var np := NewProject(ProjectCreate("p", "d", 20), 5);
    assert FirstOpen([d, d]) == Some(0);
    assert Process(d, np, 5) == Matched(closed, half, false);
    assert [d, d][0 := closed] == [closed, d];
  }

  /** Second step of the corrected pass: the second donation closes the project and itself. */
  lemma SecondStepClosesProject()
    ensures var d := Record(DonationInfo(None), 10, 0, false, 0, None);
      var closed := Record(DonationInfo(None), 10, 10, true, 0, Some(5));
      var half := Record(ProjectInfo("p", "d"), 20, 10, false, 5, None);
      var full := Record(ProjectInfo("p", "d"), 20, 20, true, 5, Some(5));
      DistributeUntilSatisfied([closed, d], half, 5) == Settled([closed, closed], full)
  {
    var d := Record(DonationInfo(None), 10, 0, false, 0, None);
    var closed := Record(DonationInfo(None), 10, 10, true, 0, Some(5));
    var half := Record(ProjectInfo("p", "d"), 20, 10, false, 5, None);
    var full := Record(ProjectInfo("p", "d"), 20, 20, true, 5, Some(5));
    assert FirstOpen([closed, d]) == Some(1) by {
      assert [closed, d][1..] == [d];
    }
    assert Process(d, half, 5) == Matched(closed, full, true);
    assert [closed, d][1 := closed] == [closed, closed];
  }

  /**
   * Two open projects of 100 and a new donation of 150.  As written, the
   * first project closes, the donation stays open at 100 and the second
   * project receives nothing; run until satisfied, the second project
   * would receive the remaining 50.
   */
  lemma DonationSpreadOverTwoProjects()
    ensures var p := Record(ProjectInfo("a", "x"), 100, 0, false, 0, None);
      var l := Ledger([], [p, p]);
      var asWritten := CreateDonationInvesting(l, DonationCreate(150), None, 7);
      var intended := CreateDonationInvestingUntilSatisfied(l, DonationCreate(150), None, 7);
      && asWritten.ledger.projects[0].investedAmount == 100 && !IsOpen(asWritten.ledger.projects[0])
      && asWritten.ledger.projects[1] == p
      && asWritten.saved.investedAmount == 100 && IsOpen(asWritten.saved)
      && intended.ledger.projects[1].investedAmount == 50 && IsOpen(intended.ledger.projects[1])
      && intended.saved.investedAmount == 150 && intended.saved.closeDate == Some(7)
  {
    var p := Record(ProjectInfo("a", "x"), 100, 0, false, 0, None);
    var d := NewDonation(DonationCreate(150), None, 7);
    assert FirstOpen([p, p]) == Some(0);
    var m := Process(p, d, 7);
    assert !m.satisfied && m.incoming.investedAmount == 100;
    assert [p, p][0 := m.other] == [m.other, p];
    var l := Ledger([], [p, p]);
    var asWritten := CreateDonationInvesting(l, DonationCreate(150), None, 7);
    assert asWritten.ledger.projects == [m.other, p] && asWritten.saved == m.incoming;
    assert FirstOpen([m.other, p]) == Some(1);
    OpenCountClose([p, p], 0, m.other);
    assert DistributeUntilSatisfied([p, p], d, 7) == DistributeUntilSatisfied([m.other, p], m.incoming, 7);
    var m2 := Process(p, m.incoming, 7);
    assert m2.satisfied && m2.other.investedAmount == 50 && m2.incoming.investedAmount == 150;
    assert [m.other, p][1 := m2.other] == [m.other, m2.other];
    assert DistributeUntilSatisfied([m.other, p], m.incoming, 7) == Settled([m.other, m2.other], m2.incoming);
  }
}

=== FILE: ledger.dfy ===
/**
 * The record store as a value: the donations table and the projects table,
 * each in insertion order.  A record is identified by its position.
 */
module Ledger {
  import opened Wrappers
  import opened Records

  datatype Ledger = Ledger(donations: seq<Donation>, projects: seq<Project>)

  /** Sum of `invested_amount` over one table. */
  function TotalInvested<I>(s: seq<Record<I>>): int
  {
    if |s| == 0 then 0 else s[0].investedAmount + TotalInvested(s[1..])
  }

  /** Number of open records in one table. */
  function OpenCount<I>(s: seq<Record<I>>): nat
  {
    if |s| == 0 then 0 else (if IsOpen(s[0]) then 1 else 0) + OpenCount(s[1..])
  }

  predicate AllValid<I>(s: seq<Record<I>>)
  {
    forall i :: 0 <= i < |s| ==> Valid(s[i])
  }

  predicate LedgerValid(l: Ledger)
  {
    AllValid(l.donations) && AllValid(l.projects)
  }

  /** Money is conserved: what donations gave equals what projects received. */
  predicate Balanced(l: Ledger)
  {
    TotalInvested(l.donations) == TotalInvested(l.projects)
  }

  /**
   * The "first open record" query: the position of the first record whose
   * `fully_invested` is false, in table order, or None when there is none.
   */
  function FirstOpen<I>(s: seq<Record<I>>): (r: Option<nat>)
    ensures r.Some? ==> r.value < |s| && IsOpen(s[r.value])
    ensures r.Some? ==> forall j :: 0 <= j < r.value ==> !IsOpen(s[j])
    ensures r.None? <==> forall j :: 0 <= j < |s| ==> !IsOpen(s[j])
  {
    if |s| == 0 then None
    else if IsOpen(s[0]) then Some(0)
    else match FirstOpen(s[1..])
      case None => None
      case Some(k) => Some(k + 1)
  }

  /** Replacing one record changes the total by exactly the difference of the two invested amounts. */
  lemma {:induction false} TotalInvestedUpdate<I>(s: seq<Record<I>>, i: nat, x: Record<I>)
    requires i < |s|
    ensures TotalInvested(s[i := x]) == TotalInvested(s) - s[i].investedAmount + x.investedAmount
    decreases i
  {
    if i == 0 {
      assert s[i := x][1..] == s[1..];
    } else {
      assert s[i := x][1..] == s[1..][i - 1 := x];
      TotalInvestedUpdate(s[1..], i - 1, x);
    }
  }

  /** Appending a record adds its invested amount to the total. */
  lemma {:induction false} TotalInvestedAppend<I>(s: seq<Record<I>>, x: Record<I>)
    ensures TotalInvested(s + [x]) == TotalInvested(s) + x.investedAmount
    decreases |s|
  {
    if |s| == 0 {
      assert s + [x] == [x];
    } else {
      assert (s + [x])[1..] == s[1..] + [x];
      TotalInvestedAppend(s[1..], x);
    }
  }

  /** Closing an open record removes exactly one open record from the table. */
  lemma {:induction false} OpenCountClose<I>(s: seq<Record<I>>, i: nat, x: Record<I>)
    requires i < |s| && IsOpen(s[i]) && !IsOpen(x)
    ensures OpenCount(s[i := x]) == OpenCount(s) - 1
    decreases i
  {
    if i == 0 {
      assert s[i := x][1..] == s[1..];
    } else {
      assert s[i := x][1..] == s[1..][i - 1 := x];
      OpenCountClose(s[1..], i - 1, x);
    }
  }
}

=== FILE: records.dfy ===
/**
 * The funded-record shape shared by charity projects and donations: the
 * columns of the common base model (target, invested amount, closed flag,
 * creation and closing instants) plus the columns particular to each
 * entity, carried in `info`.  Instants are whole seconds.
 */
module Records {
  import opened Wrappers

  datatype Record<+I> = Record(
    info: I,
    fullAmount: int,
    investedAmount: int,
    fullyInvested: bool,
    createDate: int,
    closeDate: Option<int>)

  /** Columns a charity project adds to the base model. */
  datatype ProjectInfo = ProjectInfo(name: string, description: string)

  /** Columns a donation adds: the contributing user, when one is known. */
  datatype DonationInfo = DonationInfo(userId: Option<int>)

  type Project = Record<ProjectInfo>
  type Donation = Record<DonationInfo>

  /** The ledger invariants every stored record is meant to keep. */
  predicate Valid<I>(r: Record<I>)
  {
    && 0 < r.fullAmount
    && 0 <= r.investedAmount <= r.fullAmount
    && r.fullyInvested == (r.investedAmount == r.fullAmount)
    && r.closeDate.Some? == r.fullyInvested
  }

  /** A record still accepting money (`fully_invested` is false). */
  predicate IsOpen<I>(r: Record<I>)
  {
    !r.fullyInvested
  }

  /** What is still missing: `full_amount - invested_amount`. */
  function Delta<I>(r: Record<I>): int
  {
    r.fullAmount - r.investedAmount
  }

  /**
   * The guard of both distribution loops.  On a record that keeps the
   * invariants it holds exactly when the record is open.
   */
  function NeedsMoreInvestment<I>(r: Record<I>): (b: bool)
    ensures Valid(r) ==> (b <==> IsOpen(r))
  {
    r.fullAmount > r.investedAmount
  }

  /**
   * Closing a record, as the shared CRUD helpers are assumed to do it: the
   * invested amount is raised to the target, the flag is set and the
   * closing instant is stamped with `now`.
   */
  function Close<I>(r: Record<I>, now: int): (c: Record<I>)
    ensures c.info == r.info && c.createDate == r.createDate && c.fullAmount == r.fullAmount
    ensures c.investedAmount - r.investedAmount == Delta(r)
    ensures !NeedsMoreInvestment(c) && !IsOpen(c) && c.closeDate == Some(now)
    ensures 0 < r.fullAmount ==> Valid(c)
  {
    r.(investedAmount := r.fullAmount, fullyInvested := true, closeDate := Some(now))
  }

  /** Closing twice at the same instant is closing once. */
  lemma CloseIdempotent<I>(r: Record<I>, now: int)
    ensures Close(Close(r, now), now) == Close(r, now)
  {
  }

  /** A closed record that keeps the invariants is left unchanged by closing it again at its own closing instant. */
  lemma CloseClosedIsNoOp<I>(r: Record<I>)
    requires Valid(r) && !IsOpen(r)
    ensures Close(r, r.closeDate.value) == r
  {
  }
}

=== FILE: schemas.dfy ===
/**
 * Validation of the charity-project request bodies.  A body is a JSON
 * object, modelled as a map from field names to values; parsing either
 * yields the typed payload or rejects the body.
 */
module Schemas {
  import opened Wrappers

  /** Longest project name the `name` column stores. */
  const MaxLengthForName: nat := 100
  /** Shortest accepted name and description. */
  const MinLengthForName: nat := 1

  const NameField: string := "name"
  const DescriptionField: string := "description"
  const FullAmountField: string := "full_amount"

  /** The only fields a project body may carry; any other field is forbidden. */
  const DeclaredFields: set<string> := {NameField, DescriptionField, FullAmountField}

  /** A JSON value as far as these schemas distinguish it. */
  datatype Json = JNull | JString(s: string) | JInt(i: int) | JOther

  /** A validated creation body: every field required. */
  datatype ProjectCreate = ProjectCreate(name: string, description: string, fullAmount: int)

  /** The donation creation body; only its amount takes part in allocation. */
  datatype DonationCreate = DonationCreate(fullAmount: int)

  /** One field of an update body: left out, sent as null, or sent with a value. */
  datatype Patch<+T> = Unset | Null | Set(value: T)

  /** A validated update body: every field optional. */
  datatype ProjectUpdate = ProjectUpdate(name: Patch<string>, description: Patch<string>, fullAmount: Patch<int>)

  predicate NameOk(s: string)
  {
    MinLengthForName <= |s| <= MaxLengthForName
  }

  predicate DescriptionOk(s: string)
  {
    MinLengthForName <= |s|
  }

  /** What the creation schema demands of its fields. */
  predicate CreateWellFormed(c: ProjectCreate)
  {
    NameOk(c.name) && DescriptionOk(c.description) && 0 < c.fullAmount
  }

  /** What the update schema demands: any field may be left out, only the name may not be null. */
  predicate UpdateWellFormed(u: ProjectUpdate)
  {
    && !u.name.Null?
    && (u.name.Set? ==> NameOk(u.name.value))
    && (u.description.Set? ==> DescriptionOk(u.description.value))
    && (u.fullAmount.Set? ==> 0 < u.fullAmount.value)
  }

  /** The body a client sends to create the given project. */
  function CreateBody(c: ProjectCreate): map<string, Json>
  {
    map[NameField := JString(c.name), DescriptionField := JString(c.description), FullAmountField := JInt(c.fullAmount)]
  }

  function WithPatch(m: map<string, Json>, key: string, p: Patch<Json>): map<string, Json>
  {
    match p
    case Unset => m
    case Null => m[key := JNull]
    case Set(v) => m[key := v]
  }

  function StringPatch(p: Patch<string>): Patch<Json>
  {
    match p
    case Unset => Unset
    case Null => Null
    case Set(s) => Set(JString(s))
  }

  function IntPatch(p: Patch<int>): Patch<Json>
  {
    match p
    case Unset => Unset
    case Null => Null
    case Set(i) => Set(JInt(i))
  }

  /** The body a client sends to request the given update. */
  function UpdateBody(u: ProjectUpdate): map<string, Json>
  {
    WithPatch(WithPatch(WithPatch(map[], NameField, StringPatch(u.name)),
                        DescriptionField, StringPatch(u.description)),
              FullAmountField, IntPatch(u.fullAmount))
  }

  /** How one field of a body reads: absent, null, or a value. */
  function FieldOf(m: map<string, Json>, key: string): Patch<Json>
  {
    if key !in m then Unset else if m[key].JNull? then Null else Set(m[key])
  }

  /** A name field of the update schema: a string, or absent; null is rejected. */
  function ParseOptionalName(p: Patch<Json>): Option<Patch<string>>
  {
    match p
    case Unset => Some(Unset)
    case Null => None
    case Set(v) => if v.JString? && NameOk(v.s) then Some(Set(v.s)) else None
  }

  function ParseOptionalDescription(p: Patch<Json>): Option<Patch<string>>
  {
    match p
    case Unset => Some(Unset)
    case Null => Some(Null)
    case Set(v) => if v.JString? && DescriptionOk(v.s) then Some(Set(v.s)) else None
  }

  function ParseOptionalAmount(p: Patch<Json>): Option<Patch<int>>
  {
    match p
    case Unset => Some(Unset)
    case Null => Some(Null)
    case Set(v) => if v.JInt? && 0 < v.i then Some(Set(v.i)) else None
  }

  /**
   * The creation schema: no undeclared field, a name of 1 to 100
   * characters, a non-empty description and a positive amount, all required.
   * Accepted bodies are exactly the bodies of well-formed creations.
   */
  function ParseCreate(m: map<string, Json>): (r: Option<ProjectCreate>)
    ensures r.Some? ==> CreateWellFormed(r.value) && m == CreateBody(r.value)
  {
    if !(m.Keys <= DeclaredFields) then None
    else if !(NameField in m && m[NameField].JString? && NameOk(m[NameField].s)) then None
    else if !(DescriptionField in m && m[DescriptionField].JString? && DescriptionOk(m[DescriptionField].s)) then None
    else if !(FullAmountField in m && m[FullAmountField].JInt? && 0 < m[FullAmountField].i) then None
    else
      var c := ProjectCreate(m[NameField].s, m[DescriptionField].s, m[FullAmountField].i);
      assert m.Keys == CreateBody(c).Keys;
      Some(c)
  }

  /**
   * The update schema: no undeclared field; each declared field optional and,
   * when sent, held to the creation rules; description and amount may be
   * sent as null, the name may not.  Accepted bodies are exactly the bodies
   * of well-formed updates.
   */
  function ParseUpdate(m: map<string, Json>): (r: Option<ProjectUpdate>)
    ensures r.Some? ==> UpdateWellFormed(r.value) && m == UpdateBody(r.value)
  {
    if !(m.Keys <= DeclaredFields) then None
    else
      match (ParseOptionalName(FieldOf(m, NameField)),
             ParseOptionalDescription(FieldOf(m, DescriptionField)),
             ParseOptionalAmount(FieldOf(m, FullAmountField)))
      case (Some(n), Some(d), Some(a)) =>
        var u := ProjectUpdate(n, d, a);
        assert m.Keys == UpdateBody(u).Keys;
        Some(u)
      case _ => None
  }

  /** Every well-formed creation body is accepted and read back unchanged. */
  lemma ParseCreateAccepts(c: ProjectCreate)
    requires CreateWellFormed(c)
    ensures ParseCreate(CreateBody(c)) == Some(c)
  {
  }

  /** Every well-formed update body is accepted and read back unchanged. */
  lemma ParseUpdateAccepts(u: ProjectUpdate)
    requires UpdateWellFormed(u)
    ensures ParseUpdate(UpdateBody(u)) == Some(u)
  {
  }

  /** A body carrying any field outside the schema is rejected by both schemas. */
  lemma ExtraFieldRejected(m: map<string, Json>, k: string)
    requires k in m && k !in DeclaredFields
    ensures ParseCreate(m).None? && ParseUpdate(m).None?
  {
  }

  /** An update that sends the name as null is rejected, whatever else it carries. */
  lemma NullNameRejected(m: map<string, Json>)
    requires NameField in m && m[NameField] == JNull
    ensures ParseUpdate(m).None?
  {
  }
}

=== FILE: wrappers.dfy ===
/** The optional value used wherever the service returns "a record or nothing". */
module Wrappers {

  datatype Option<+T> = None | Some(value: T)
  {
    predicate IsFailure()
    {
      None?
    }

    function PropagateFailure<U>(): Option<U>
      requires None?
    {
      None
    }

    function Extract(): T
      requires Some?
    {
      value
    }
  }
}
